=== FILE: README.md ===
# Bitcoin volume forecast notifier: a Dafny model of its scheduler

The bot lets each Telegram chat set a **threshold** (in BTC) and a polling **interval** (in minutes).
For every chat, `DataService` (dataService.js) keeps a record on disk and one `setTimeout` timer in memory.
Each timer tick does the following:

1. It fetches the day's on-chain output total.
2. It extrapolates that total to a full-day **forecast**.
3. It sends a message when the forecast, or the current volume, exceeds the threshold. Between threshold changes, and as long as two ticks of one chat do not overlap, each of the two notices is sent at most once per UTC weekday.
4. It writes the record back.
5. It re-arms the timer.

`utils.js` supplies `pad`, which builds the two-digit date of the request, and `declOfNum`, which picks the Russian plural form of "minutes".

The model is split into these modules:

- `Utils` (utils.dfy) covers `declOfNum` and `pad`. JavaScript's truncating `%` and `n + ''` (for integers below 10^21) are written out, and a decimal-string round trip is proved.
- `Clock` (clock.dfy) covers UTC time as `Date` exposes it. An instant is a natural number of milliseconds. `getUTCDay` is `((t / 86400000) + 4) % 7`, because 1970-01-01 was a Thursday.
- `Forecast` (forecast.dfy) covers the arithmetic of `calculateForecast` and the scaling in `loadCurrentBTCVolume`. It uses exact integers, and `Math.round` is round-half-up.
  - The fetched satoshi sum is an input. A failed fetch is `None`.
  - `minutes = round(1440 - (23:59 today - now)/60000)` is the elapsed minutes since midnight, rounded, plus one. It always lies in 1..1441, so the division is never by zero.
- `Scheduler` (scheduler.dfy) gives every `DataService` operation as a function from state to state. The state has three parts:
  - the record store, a map from chat id to record;
  - the live timers, a map from chat id to pending delay, so a chat has at most one timer;
  - the outbox, the sequence of `sendMessage` calls.

  This module also holds the lemmas about these functions:
  - the timer and frame facts of a tick;
  - the notification rule;
  - the threshold reset;
  - what the start-up pass arms;
  - at most one notice of each kind per UTC weekday, over any sequence of events.
- `Service` (service.dfy) is the class `DataService`. Its fields `store`, `timers` and `outbox` are updated in place, step by step, in the source's order. Each public operation (`RegisterUser`, `SetInterval`, `SetThreshold`, `StartForecasting`, `RenewForecasting`) is proved to reach exactly the state that the matching `Scheduler` function gives, and to keep the invariant `Valid()`. The helper `Check` is proved equal to `Scheduler.Evaluate`, and `UpdateUserData` overwrites one record.

The invariant `Valid()` says two things: every record is stored under its own id, and only stored chats have timers.

Some behaviour of the code that is easy to misread:

- **Daily dedup uses the UTC weekday** (`getUTCDay`, dataService.js:119 and :132), not the calendar date. `Scheduler.BlockedAWeekLater` shows the effect: a notice stamped exactly seven days earlier still blocks a new one.
- **A failed fetch sends nothing.** The promise chain has no `catch`. Nothing is sent, the record is not written, and the timer is not re-armed, even though it was already cancelled.
- **`minutes` at 12:00 UTC is 721**: the elapsed minutes plus one. So 500 BTC at noon forecasts 999 (`Forecast.NoonExample`).
- **A threshold of 0 counts as "disabled"**, just like `null`, because the test is JavaScript truthiness. The same goes for an interval of 0.

Inputs that the source reads from its environment are parameters here:

- `now` is the clock, in milliseconds.
- `satoshiSum` is the fetch result, with `None` for failure.
- `listing` is the directory listing that `getAllUids` returns.

## Model

| member | source | states |
|---|---|---|
| `Utils.DeclIndex` | utils.js:2 | the selected title index is always 0, 1 or 2 |
| `Utils.JsRem` | utils.js:2 | JavaScript's `n % k` equals Dafny's remainder for n >= 0 and lies in -k+1..0 for negative n (the sign follows the dividend) |
| `Utils.DeclOfNum` | utils.js:1-3 | returns the title at the selected index, or `undefined` (`None`) when the titles are too few |
| `Utils.DeclSingular` | utils.js:2 | for n >= 0, index 0 exactly when n ends in 1 but not in 11 (both directions) |
| `Utils.DeclFew` | utils.js:2 | for n >= 0, index 1 exactly when the last digit is 2-4 and n % 100 is not in 10..19 (both directions) |
| `Utils.DeclMany` | utils.js:2 | index 2 for n ending in 11-14, for last digits 0 and 5-9, and for every negative n (JavaScript's `%` keeps the sign) |
| `Utils.NatString` | utils.js:7 | `n + ''` is a non-empty string of decimal digits, one digit for n < 10 and two for 10..99 |
| `Utils.NatStringRoundTrip` | utils.js:7 | reading back the decimal string of n gives n |
| `Utils.NatStringNoLeadingZero` | utils.js:7 | the decimal string of n starts with `0` only for n = 0, so it is the shortest representation |
| `Utils.DecimalString` | utils.js:7 | a negative number is a minus sign followed by the digits of its absolute value |
| `Utils.Repeat` | utils.js:8 | `new Array(k + 1).join(z)` is k times as long as z, and every character is z when z is one character |
| `Utils.PadChar` | utils.js:6 | the padding default keeps a non-empty padding and is never empty |
| `Utils.Pad` | utils.js:5-9 | a number at least `width` long is returned unchanged; a shorter one gets `width - length` copies of the padding in front |
| `Utils.PadToWidth` | utils.js:8 | with a one-character padding, a short number is padded to exactly `width` characters, padding first and the number's digits last |
| `Utils.PadDefaultsToZero` | utils.js:6 | an omitted or empty padding pads with `'0'` |
| `Utils.PadDatePart` | dataService.js:15-16 | `pad(d, 2, '0')` of a day or month 1..31 is two digits that read back as d |
| `Clock.Weekday` | dataService.js:119 | `getUTCDay` lies in 0..6 |
| `Clock.DayStart` | dataService.js:26 | midnight UTC of `now`'s day is a multiple of a day and within a day before `now` |
| `Clock.WeekdayEqualIff` | dataService.js:119 | two instants share a UTC weekday exactly when their day numbers differ by a multiple of 7 (both directions) |
| `Clock.WeekdayDiffersWithinWeek` | dataService.js:132 | instants 1-6 UTC days apart have different weekdays |
| `Clock.WeekdayRepeatsAfterWeek` | dataService.js:132 | instants 7 UTC days apart have the same weekday |
| `Forecast.RoundDiv` | dataService.js:27-28 | `Math.round(p/q)` lies within one half of p/q: 2qr - q <= 2p < 2qr + q |
| `Forecast.RoundDivUnique` | dataService.js:27-28 | that half-open window holds only one integer, so the rounding is fully determined |
| `Forecast.Volume` | dataService.js:20 | `round(sum / 1e8)` is within half a bitcoin of the satoshi sum, and not negative for a non-negative sum |
| `Forecast.EndOf2359` | dataService.js:26 | `today` is 23:59 UTC of `now`'s own day, so `now` is less than a minute after it |
| `Forecast.Minutes` | dataService.js:26-27 | `minutes` lies in 1..1441 (never zero) and equals the elapsed minutes since UTC midnight, rounded, plus one |
| `Forecast.ExtrapolationBounds` | dataService.js:28 | rounding volume·1440/m with 1 <= m <= 1440 gives a value not below a non-negative volume |
| `Forecast.ForecastOf` | dataService.js:28 | the forecast f is `round(volume·1440/minutes)`, stated by its window 2·m·f - m <= 2·volume·1440 < 2·m·f + m; it is non-negative for a non-negative volume, and at least the volume while `minutes` <= 1440 |
| `Forecast.CalculateForecast` | dataService.js:23-34 | fails exactly when the fetch fails; otherwise it carries `now`, the volume `round(sum/1e8)` and the forecast `round(volume·1440/minutes)` (each stated by its rounding window), a non-negative volume for a non-negative sum, and a forecast at least that volume before 23:59:30 |
| `Forecast.NoonExample` | dataService.js:26-28 | at 12:00 UTC `minutes` is 721, and 500 BTC forecasts 999 |
| `Scheduler.RegisterUser` | dataService.js:50-70 | a known chat gets its stored record and nothing changes; a new chat gets a record of its id and six nulls, and only that record is added; in a well-formed state the record returned is the chat's own |
| `Scheduler.RegisterIdempotent` | dataService.js:50-70 | registering twice gives the same state and record as registering once |
| `Scheduler.NewRecord` | dataService.js:54-62 | a new record carries the chat's id, no threshold, no interval and no notified-at stamps, so it arms nothing |
| `Scheduler.Truthy` | dataService.js:114-147 | a truthy field is set and non-zero, and every positive value is truthy (`null` and 0 are falsy) |
| `Scheduler.Fires` | dataService.js:119-133 | a check fires only for a reading above the threshold; with no stamp it fires exactly then; a stamp of `now` itself blocks it |
| `Scheduler.DelayOf` | dataService.js:150 | the re-arm delay is the interval in minutes as milliseconds, at least a minute for a positive interval |
| `Scheduler.Evaluate` | dataService.js:116-143 | a successful tick stores the new forecast and volume, keeps id, threshold and interval, and sends at most two messages, all to this chat with this threshold |
| `Scheduler.EvaluateNotice` | dataService.js:119-143 | each check sends its notice exactly when the reading exceeds the threshold and the field is null or stamped on another weekday; the field becomes `now` exactly then |
| `Scheduler.StartForecasting` | dataService.js:107-154 | the chat's old timer is gone; a new one of interval·60000 ms exists iff the record exists, the threshold and interval are truthy and the fetch succeeded; other chats' timers and records are untouched; a falsy threshold, unknown chat or failed fetch writes and sends nothing; a successful tick writes the readings and keeps id, threshold and interval; messages only go to this chat |
| `Scheduler.TickNotice` | dataService.js:115-145 | over a whole tick, the number of notices of a kind sent to the chat is 1 exactly when that check fires and 0 otherwise, and the stored field is stamped with `now` exactly then |
| `Scheduler.SetThreshold` | dataService.js:98-105 | an unknown chat changes nothing; otherwise the threshold is set, id and interval are kept, each notified-at field is null or `now`, and without a tick the readings are kept and both fields are null; the chat ends with a timer of interval·60000 ms iff the value is non-zero, the interval truthy and the fetch succeeded; a zero value or failed fetch sends nothing; other chats' timers are untouched and at most two messages go out, both to this chat |
| `Scheduler.SetThresholdRenotifies` | dataService.js:98-143 | after a non-zero threshold is set and the fetch succeeds, the record holds the new forecast and volume, and each notice is sent, and its field stamped with `now`, exactly when its reading exceeds the new threshold (the field is null otherwise), whatever was sent earlier that day |
| `Scheduler.SetInterval` | dataService.js:91-96 | an unknown chat changes nothing; otherwise only the interval changes before the tick; the chat ends with a timer of value·60000 ms iff value is non-zero, the threshold is truthy and the fetch succeeded (so an interval of 0 leaves no timer); a falsy threshold or failed fetch sends nothing; other chats' timers are untouched and at most two messages go out, both to this chat |
| `Scheduler.SetIntervalTick` | dataService.js:91-143 | when the chat's threshold is truthy and the fetch succeeds, the tick `setInterval` starts stores the new forecast and volume, and each notice is sent, and its field stamped with `now`, exactly when its gate fires on the record as it was; otherwise the field keeps its stamp |
| `Scheduler.TickSparesOthers` | dataService.js:108-110 | a tick cancels and re-arms only its own chat's timer |
| `Scheduler.RenewForecasting` | dataService.js:36-39 | the start-up pass keeps every earlier message, sends at most two per listed chat, each to a listed chat, and keeps the state well-formed |
| `Scheduler.RenewKeepsSettings` | dataService.js:36-39 | the start-up pass keeps every chat, its threshold and its interval |
| `Scheduler.RenewSparesUnlisted` | dataService.js:36-39 | the start-up pass leaves unlisted chats' timers alone |
| `Scheduler.RenewArmsConfigured` | dataService.js:36-39 | after the start-up pass, a listed chat has a timer exactly when its threshold and interval are truthy and its fetch succeeded |
| `Scheduler.OnceOnWeekdayCompose` | dataService.js:119-143 | two stretches of at most one notice each, the second silent once the first sent one, together send at most one |
| `Scheduler.TickOnceOnWeekday` | dataService.js:119-143 | a tick on weekday w sends a chat at most one notice of a kind, none once its field is stamped on w, and stamps it when it sends |
| `Scheduler.IntervalSetOnceOnWeekday` | dataService.js:91-96 | the same holds for `setInterval` with its tick |
| `Scheduler.OtherThresholdSetOnceOnWeekday` | dataService.js:98-105 | the same holds for `setThreshold` on another chat |
| `Scheduler.StepOnceOnWeekday` | dataService.js:50-154 | the same holds for any event other than a new threshold for that chat |
| `Scheduler.AtMostOncePerWeekday` | dataService.js:112-145 | over any sequence of registrations, ticks and settings on one UTC weekday, with no new threshold for the chat, the chat gets at most one notice of each kind, and none if it was already stamped that weekday |
| `Scheduler.FiresAgainWithinWeek` | dataService.js:119-120 | a notice stamped 1-6 UTC days ago no longer blocks a reading above the threshold |
| `Scheduler.BlockedAWeekLater` | dataService.js:119-120 | a notice stamped exactly 7 UTC days ago blocks a new one (weekday, not date, comparison) |
| `Service.DataService.constructor` | dataService.js:10-12 | starts valid over the persisted records, with no timers and nothing sent |
| `Service.DataService.GetUserData` | dataService.js:72-83 | yields the stored record exactly when the chat has one (reading a missing file throws) |
| `Service.DataService.UpdateUserData` | dataService.js:85-89 | overwrites only this chat's record |
| `Service.DataService.RegisterUser` | dataService.js:50-70 | state and returned record are those of `Scheduler.RegisterUser`; the record returned is the one stored under the chat and carries its id; keeps `Valid()` |
| `Service.DataService.SetInterval` | dataService.js:91-96 | new state equals `Scheduler.SetInterval` of the old; keeps `Valid()` |
| `Service.DataService.SetThreshold` | dataService.js:98-105 | new state equals `Scheduler.SetThreshold` of the old; keeps `Valid()` |
| `Service.DataService.Check` | dataService.js:116-143 | the updated record and the appended messages are those of `Scheduler.Evaluate` |
| `Service.DataService.StartForecasting` | dataService.js:107-154 | new state equals `Scheduler.StartForecasting` of the old; keeps `Valid()` |
| `Service.DataService.RenewForecasting` | dataService.js:36-39 | the loop over the listing reaches `Scheduler.RenewForecasting` of the old state; keeps `Valid()` |

## Left out

- bot.js is not part of this model. That covers the chat commands, inline keyboards, localized replies, `parseInt`/`NaN` handling of chat input, session middleware and bootstrap.
- Network I/O in `loadCurrentBTCVolume` is an input. The URL, the fetch and the JSON body parsing are replaced by the satoshi sum, or `None` when any of them fails. The request's date uses `pad`, and `Utils.PadDatePart` covers that use. The hard-coded year 2020 in the URL is not modelled.
- File-system I/O and JSON serialization are replaced by the `store` map. `getAllUids` is the `listing` parameter of `RenewForecasting`, and its precondition says the listing names exactly the stored chats. Directory order is whatever the listing gives.
- Real timers, Promises and asynchrony are not modelled. Each tick is atomic, and timers are entries in a map.
  - In the source, a tick reads the record before the fetch and writes it after. A `setThreshold` that lands between the two can be overwritten.
  - Two ticks of one chat can be in flight at once. Each then arms a timer, and the first handle becomes unreachable.
  - Neither interleaving is captured.
- Scheduler.AtMostOncePerWeekday: holds for the atomic ticks the model assumes only. In the source, a tick reads the record at dataService.js:112 and writes it at :145 after its fetch, and cancelling the timer does not stop a fetch already running. So two overlapping ticks of one chat, for instance a timer tick and the tick started by `setInterval`, can both find the stamp unset and both send the same notice on one day.
- `clearTimeout` leaves the dead handle in `timers`. The model removes the key instead, so the map holds only live timers.
- Node's clamping of `setTimeout` delays below 1 ms or above 2^31 - 1 ms is not modelled. The timer records `interval * 60 * 1000` as computed.
- `new Date()` is read several times during one tick. The model uses a single `now` for all of them.
- Instants before 1970 are not modelled.
- Date formatting is not modelled. Notified-at fields are kept as milliseconds, whereas the source stores them through `toUTCString` and `Date.parse`, to the second. That round trip keeps the UTC weekday, and the weekday is all the dedup compares.
- Utils.DecimalString: gives plain decimal digits for every integer, whereas JavaScript writes integers of magnitude 10^21 and above in exponent form ("1e+21"); the numbers this code pads are days and months, far below that.
- Floating-point semantics of `/` and `Math.round` are replaced by exact rationals with round-half-up. So `NaN`, `Infinity` and precision loss on very large sums are out.
- Threshold and interval are integers, as the bot's `parseInt` produces them. A `NaN` threshold or interval is not modelled.
- Message text and Markdown formatting are not modelled. A message records the recipient, the kind and the two numbers its text shows. Delivery failures of `sendMessage` are not modelled.
- The `bot` field and constructor argument are not modelled. The bot is used only to send messages, and the outbox models those.

=== FILE: clock.dfy ===
/**
 * UTC time as the service reads it from `Date`: an instant is a non-negative
 * number of milliseconds since 1970-01-01T00:00:00Z.
 */
module Clock {
  const MsPerMinute: nat := 60000
  const MsPerDay: nat := 86400000

  /** Whole UTC days elapsed since the epoch. */
  function DayIndex(t: nat): nat {
    t / MsPerDay
  }

  /** `Date.prototype.getUTCDay`: 0 is Sunday, and the epoch fell on a Thursday (4). */
  function Weekday(t: nat): (d: nat)
    ensures d < 7
    ensures DayIndex(t) % 7 == 3 ==> d == 0
  {
    var k := DayIndex(t);
    assert k % 7 == 3 ==> k + 4 == 7 * (k / 7 + 1);
    (k + 4) % 7
  }

  /** Midnight UTC of the day `t` falls in (`Date.UTC(year, month, date)`). */
  function DayStart(t: nat): (start: nat)
    ensures start <= t < start + MsPerDay
    ensures start % MsPerDay == 0
  {
    DayIndex(t) * MsPerDay
  }

  /** Two instants share a UTC weekday exactly when their day numbers differ by a multiple of seven. */
  lemma WeekdayEqualIff(a: nat, b: nat)
    ensures Weekday(a) == Weekday(b) <==> (DayIndex(a) - DayIndex(b)) % 7 == 0
  {
    var x, y := DayIndex(a) + 4, DayIndex(b) + 4;
    assert x == 7 * (x / 7) + x % 7;
    assert y == 7 * (y / 7) + y % 7;
    var d := x - y;
    assert d == 7 * (x / 7 - y / 7) + (x % 7 - y % 7);
    if x % 7 == y % 7 {
      assert d == 7 * (x / 7 - y / 7);
    } else {
      var k := x / 7 - y / 7;
      var r := x % 7 - y % 7;
      assert -7 < r < 7 && r != 0;
      assert d == 7 * k + r;
      if r > 0 {
        assert d % 7 == r;
      } else {
        assert d == 7 * (k - 1) + (r + 7);
        assert d % 7 == r + 7;
      }
    }
  }

  /** Instants one to six UTC days apart fall on different weekdays. */
  lemma WeekdayDiffersWithinWeek(a: nat, b: nat)
    requires DayIndex(a) < DayIndex(b) < DayIndex(a) + 7
    ensures Weekday(a) != Weekday(b)
  {
  }

  /** Instants exactly seven UTC days apart fall on the same weekday. */
  lemma WeekdayRepeatsAfterWeek(a: nat, b: nat)
    requires DayIndex(b) == DayIndex(a) + 7
    ensures Weekday(a) == Weekday(b)
  {
  }
}

=== FILE: forecast.dfy ===
/**
 * The arithmetic of `calculateForecast` and of the volume scaling in
 * `loadCurrentBTCVolume`, over exact integers and rationals.
 */
module Forecast {
  import opened Wrappers
  import opened Clock

  const MinutesPerDay: nat := 24 * 60
  /** Satoshis per bitcoin: the block explorer reports sums in satoshis. */
  const SatoshiPerBtc: nat := 100000000

  /**
   * `Math.round(p / q)` for `q > 0`: the integer nearest to the rational p/q,
   * with halves rounded up.
   */
  function RoundDiv(p: int, q: int): (r: int)
    requires q > 0
    ensures 2 * q * r - q <= 2 * p < 2 * q * r + q
  {
    var m, d := 2 * p + q, 2 * q;
    assert m == d * (m / d) + m % d;
    m / d
  }

  /** The sign of a product with a positive factor is the sign of the other factor. */
  lemma MulSign(a: int, b: int)
    requires a > 0
    ensures b >= 0 ==> a * b >= 0
    ensures b > 0 ==> a * b > 0
  {
  }

  /** Only one integer lies within a half of p/q from below and under a half from above. */
  lemma RoundDivUnique(p: int, q: int, r: int)
    requires q > 0
    requires 2 * q * r - q <= 2 * p < 2 * q * r + q
    ensures r == RoundDiv(p, q)
  {
    var s := RoundDiv(p, q);
    MulSign(q, 2 * (r - s) - 2);
    assert q * (2 * (r - s) - 2) == 2 * q * r - 2 * q * s - 2 * q;
    MulSign(q, 2 * (s - r) - 2);
    assert q * (2 * (s - r) - 2) == 2 * q * s - 2 * q * r - 2 * q;
  }

  /** `Math.round(sum / 1e8)`: the day's output total in whole bitcoins. */
  function Volume(satoshiSum: int): (v: int)
    ensures satoshiSum >= 0 ==> v >= 0
    ensures 2 * SatoshiPerBtc * v - SatoshiPerBtc <= 2 * satoshiSum < 2 * SatoshiPerBtc * v + SatoshiPerBtc
  {
    RoundDiv(satoshiSum, SatoshiPerBtc)
  }

  /** The `today` of `calculateForecast`: 23:59 UTC of the day `now` falls in. */
  function EndOf2359(now: nat): (e: nat)
    ensures DayStart(now) <= e < DayStart(now) + MsPerDay
    ensures now < e + MsPerMinute
  {
    DayStart(now) + (23 * 60 + 59) * MsPerMinute
  }

  /**
   * `minutes` of `calculateForecast`: `Math.round(1440 - (today - now) / 60000)`.
   * It is the number of minutes elapsed since midnight, rounded, plus one (not
   * the minutes remaining), so it is never zero and the division is defined.
   */
  function Minutes(now: nat): (m: int)
    ensures 1 <= m <= MinutesPerDay + 1
    ensures m == RoundDiv(now - DayStart(now), MsPerMinute) + 1
  {
    var e := now - DayStart(now);
    assert MinutesPerDay * MsPerMinute - (EndOf2359(now) - now) == MsPerMinute + e;
    var r := RoundDiv(MinutesPerDay * MsPerMinute - (EndOf2359(now) - now), MsPerMinute);
    RoundDivUnique(e, MsPerMinute, r - 1);
    r
  }

  /** Multiplying by m >= 1 keeps a strict integer gap of at least m. */
  lemma MulBelow(m: int, a: int, b: int)
    requires m >= 1 && a < b
    ensures m * a <= m * b - m
  {
    MulSign(m, b - a - 1);
    assert m * (b - a - 1) == m * b - m * a - m;
  }

  /** A non-negative volume scaled by m <= 1440 is at most the volume scaled by 1440. */
  lemma MulAtMostDay(m: int, volume: int)
    requires m <= MinutesPerDay && volume >= 0
    ensures m * volume <= MinutesPerDay * volume
  {
    if m < MinutesPerDay {
      MulSign(MinutesPerDay - m, volume);
      assert (MinutesPerDay - m) * volume == MinutesPerDay * volume - m * volume;
    }
  }

  /** Rounding volume * 1440 / m with 1 <= m <= 1440 never falls below a non-negative volume. */
  lemma ExtrapolationBounds(volume: int, m: int, f: int)
    requires 1 <= m
    requires 2 * m * f - m <= 2 * (volume * MinutesPerDay) < 2 * m * f + m
    ensures volume >= 0 ==> f >= 0
    ensures volume >= 0 && m <= MinutesPerDay ==> f >= volume
  {
    assert 2 * m * f == 2 * (m * f);
    if f < 0 {
      MulBelow(m, f, 0);
    }
    if volume >= 0 && m <= MinutesPerDay && f < volume {
      MulBelow(m, f, volume);
      MulAtMostDay(m, volume);
    }
  }

  /**
   * `forecast` of `calculateForecast`: `Math.round(volume / minutes * 1440)`, the
   * day's volume so far extrapolated linearly to the whole day.
   */
  function ForecastOf(volume: int, now: nat): (f: int)
    ensures 2 * Minutes(now) * f - Minutes(now) <= 2 * (volume * MinutesPerDay) < 2 * Minutes(now) * f + Minutes(now)
    ensures volume >= 0 ==> f >= 0
    ensures volume >= 0 && Minutes(now) <= MinutesPerDay ==> f >= volume
  {
    var f := RoundDiv(volume * MinutesPerDay, Minutes(now));
    ExtrapolationBounds(volume, Minutes(now), f);
    f
  }

  /** What one forecast yields; `now` is the instant it was computed for. */
  datatype ForecastResult = ForecastResult(now: nat, forecast: int, currentBTCVolume: int)

  /**
   * `calculateForecast`: the fetched satoshi sum (`None` when the request or the
   * parsing of its body fails, which rejects the promise) scaled to bitcoins and
   * extrapolated to the whole UTC day of `now`.
   */
  function CalculateForecast(satoshiSum: Option<int>, now: nat): (r: Option<ForecastResult>)
    ensures r.Some? <==> satoshiSum.Some?
    ensures r.Some? ==> r.value.now == now
    ensures r.Some? ==>
      2 * SatoshiPerBtc * r.value.currentBTCVolume - SatoshiPerBtc <= 2 * satoshiSum.value
      < 2 * SatoshiPerBtc * r.value.currentBTCVolume + SatoshiPerBtc
    ensures r.Some? ==>
      var m := Minutes(now);
      2 * m * r.value.forecast - m <= 2 * (r.value.currentBTCVolume * MinutesPerDay) < 2 * m * r.value.forecast + m
    ensures r.Some? ==>
      r.value.currentBTCVolume == Volume(satoshiSum.value)
      && r.value.forecast == ForecastOf(r.value.currentBTCVolume, now)
    ensures r.Some? && satoshiSum.value >= 0 ==> 0 <= r.value.currentBTCVolume
    ensures r.Some? && satoshiSum.value >= 0 && Minutes(now) <= MinutesPerDay ==>
      r.value.currentBTCVolume <= r.value.forecast
  {
    match satoshiSum
    case None => None
    case Some(sum) =>
      var volume := Volume(sum);
      Some(ForecastResult(now, ForecastOf(volume, now), volume))
  }

  /**
   * At 12:00:00 UTC on 2020-06-15, 500 BTC so far give `minutes` 721 (720
   * elapsed minutes plus one) and a forecast of round(720000 / 721) = 999.
   */
  lemma NoonExample()
    ensures Minutes(1592222400000) == 721
    ensures ForecastOf(500, 1592222400000) == 999
  {
  }
}

=== FILE: scheduler.dfy ===
/**
 * The per-user state machine of `DataService` as values: the record store (a
 * map from chat id to record), the pending timers (a map from chat id to the
 * delay of its one live timer) and the messages sent so far. Each operation is
 * a function from the state before to the state after; the class in module
 * Service performs the same steps in place and is proved equal to these.
 */
module Scheduler {
  import opened Wrappers
  import opened Clock
  import opened Forecast

  /** A Telegram chat id. */
  type Uid = int

  /** One user's persisted record; `None` is a `null` field. Timestamps are milliseconds. */
  datatype UserRecord = UserRecord(
    uid: Uid,
    interval: Option<int>,
    threshold: Option<int>,
    latestForecast: Option<int>,
    currentBTCVolume: Option<int>,
    forecastExceededNotifiedAt: Option<nat>,
    volumeExceededNotifiedAt: Option<nat>)

  /** JavaScript truthiness of a nullable number: `null` and `0` are falsy. */
  predicate Truthy(x: Option<int>)
    ensures Truthy(x) ==> x.Some? && x.value != 0
    ensures x.Some? && x.value > 0 ==> Truthy(x)
  {
    x.Some? && x.value != 0
  }

  /** The record `registerUser` writes for a new chat: every field but the id is null. */
  function NewRecord(uid: Uid): (user: UserRecord)
    ensures user.uid == uid && !Truthy(user.threshold) && !Truthy(user.interval)
    ensures StampOf(user, ForecastExceeded).None? && StampOf(user, VolumeExceeded).None?
  {
    UserRecord(uid, None, None, None, None, None, None)
  }

  /** The two notices: the forecast, or the current volume, exceeded the threshold. */
  datatype Kind = ForecastExceeded | VolumeExceeded

  /** A `sendMessage` call: who got it, which notice, and the two numbers its text shows. */
  datatype Message = Message(to: Uid, kind: Kind, value: int, threshold: int)

  datatype State = State(store: map<Uid, UserRecord>, timers: map<Uid, int>, outbox: seq<Message>)

  /** Every record sits under its own id, and timers exist only for stored users. */
  predicate WellFormed(s: State) {
    (forall u :: u in s.store ==> s.store[u].uid == u) && s.timers.Keys <= s.store.Keys
  }

  /** The notified-at field that gates notices of `kind`. */
  function StampOf(user: UserRecord, kind: Kind): Option<nat> {
    match kind
    case ForecastExceeded => user.forecastExceededNotifiedAt
    case VolumeExceeded => user.volumeExceededNotifiedAt
  }

  /** The number compared with the threshold for notices of `kind`. */
  function ReadingOf(fc: ForecastResult, kind: Kind): int {
    match kind
    case ForecastExceeded => fc.forecast
    case VolumeExceeded => fc.currentBTCVolume
  }

  /** The number of messages of `kind` sent to `uid`. */
  function Count(msgs: seq<Message>, uid: Uid, kind: Kind): nat {
    if msgs == [] then 0
    else Count(msgs[..|msgs| - 1], uid, kind)
         + (if msgs[|msgs| - 1].to == uid && msgs[|msgs| - 1].kind == kind then 1 else 0)
  }

  lemma {:induction false} CountAppend(a: seq<Message>, b: seq<Message>, uid: Uid, kind: Kind)
    ensures Count(a + b, uid, kind) == Count(a, uid, kind) + Count(b, uid, kind)
  {
    if b != [] {
      var b' := b[..|b| - 1];
      assert (a + b)[..|a + b| - 1] == a + b';
      CountAppend(a, b', uid, kind);
    } else {
      assert a + b == a;
    }
  }

  /** Messages all addressed to other chats hold none for `uid`. */
  lemma {:induction false} CountOthers(msgs: seq<Message>, uid: Uid, kind: Kind)
    requires forall i :: 0 <= i < |msgs| ==> msgs[i].to != uid
    ensures Count(msgs, uid, kind) == 0
  {
    if msgs != [] {
      CountOthers(msgs[..|msgs| - 1], uid, kind);
    }
  }

  // ---------------------------------------------------------------- registerUser

  datatype Registration = Registration(state: State, user: UserRecord)

  /**
   * `registerUser`: create-if-absent. A new chat gets a record of nulls; a known
   * chat gets its stored record back and nothing changes.
   */
  function RegisterUser(s: State, uid: Uid): (r: Registration)
    ensures uid in r.state.store && r.user == r.state.store[uid]
    ensures uid in s.store ==> r.state == s
    ensures uid !in s.store ==>
      r.state.store == s.store[uid := r.user] && r.state.timers == s.timers && r.state.outbox == s.outbox
      && r.user.uid == uid
      && r.user.interval == r.user.threshold == r.user.latestForecast == r.user.currentBTCVolume == None
      && r.user.forecastExceededNotifiedAt == r.user.volumeExceededNotifiedAt == None
    ensures WellFormed(s) ==> WellFormed(r.state) && r.user.uid == uid
  {
    if uid in s.store then Registration(s, s.store[uid])
    else Registration(s.(store := s.store[uid := NewRecord(uid)]), NewRecord(uid))
  }

  /** Registering twice is registering once: same state, same record returned. */
  lemma RegisterIdempotent(s: State, uid: Uid)
    ensures RegisterUser(RegisterUser(s, uid).state, uid) == RegisterUser(s, uid)
  {
  }

  // ---------------------------------------------------------------- the tick

  /**
   * The daily gate and the comparison of dataService.js:119-120 and :132-133: no notice
   * stamped yet, or one stamped on another UTC weekday, and the reading above
   * the threshold.
   */
  predicate Fires(stamp: Option<nat>, reading: int, threshold: int, now: nat)
    ensures Fires(stamp, reading, threshold, now) ==> reading > threshold
    ensures stamp.None? ==> (Fires(stamp, reading, threshold, now) <==> reading > threshold)
    ensures stamp == Some(now) ==> !Fires(stamp, reading, threshold, now)
  {
    (stamp.None? || Weekday(stamp.value) != Weekday(now)) && reading > threshold
  }

  /** The outcome of the two checks on the in-memory copy of the record. */
  datatype Evaluation = Evaluation(user: UserRecord, sent: seq<Message>)

  /**
   * dataService.js:116-143: store the new readings in the record, then run the forecast
   * check and the volume check, each of which sends one message and stamps its
   * notified-at field with `now` when it fires.
   */
  function Evaluate(uid: Uid, user: UserRecord, fc: ForecastResult): (ev: Evaluation)
    requires user.threshold.Some?
    ensures ev.user.uid == user.uid && ev.user.interval == user.interval && ev.user.threshold == user.threshold
    ensures ev.user.latestForecast == Some(fc.forecast) && ev.user.currentBTCVolume == Some(fc.currentBTCVolume)
    ensures |ev.sent| <= 2
    ensures forall i :: 0 <= i < |ev.sent| ==> ev.sent[i].to == uid && ev.sent[i].threshold == user.threshold.value
  {
    var t := user.threshold.value;
    var forecastFires := Fires(user.forecastExceededNotifiedAt, fc.forecast, t, fc.now);
    var volumeFires := Fires(user.volumeExceededNotifiedAt, fc.currentBTCVolume, t, fc.now);
    Evaluation(
      user.(latestForecast := Some(fc.forecast),
            currentBTCVolume := Some(fc.currentBTCVolume),
            forecastExceededNotifiedAt := if forecastFires then Some(fc.now) else user.forecastExceededNotifiedAt,
            volumeExceededNotifiedAt := if volumeFires then Some(fc.now) else user.volumeExceededNotifiedAt),
      (if forecastFires then [Message(uid, ForecastExceeded, fc.forecast, t)] else [])
      + (if volumeFires then [Message(uid, VolumeExceeded, fc.currentBTCVolume, t)] else []))
  }

  /** Each check sends its notice exactly when it fires, and then only then restamps its field. */
  lemma EvaluateNotice(uid: Uid, user: UserRecord, fc: ForecastResult, kind: Kind)
    requires user.threshold.Some?
    ensures var ev := Evaluate(uid, user, fc);
      var fires := Fires(StampOf(user, kind), ReadingOf(fc, kind), user.threshold.value, fc.now);
      Count(ev.sent, uid, kind) == (if fires then 1 else 0)
      && StampOf(ev.user, kind) == (if fires then Some(fc.now) else StampOf(user, kind))
  {
    var t := user.threshold.value;
    var forecastFires := Fires(user.forecastExceededNotifiedAt, fc.forecast, t, fc.now);
    var volumeFires := Fires(user.volumeExceededNotifiedAt, fc.currentBTCVolume, t, fc.now);
    var a: seq<Message> := if forecastFires then [Message(uid, ForecastExceeded, fc.forecast, t)] else [];
    var b: seq<Message> := if volumeFires then [Message(uid, VolumeExceeded, fc.currentBTCVolume, t)] else [];
    CountAppend(a, b, uid, kind);
    if a != [] { assert a[..0] == []; }
    if b != [] { assert b[..0] == []; }
  }

  /** Whether a tick of `uid` gets past the threshold test and the fetch. */
  predicate Proceeds(s: State, uid: Uid, satoshiSum: Option<int>) {
    uid in s.store && Truthy(s.store[uid].threshold) && satoshiSum.Some?
  }

  /** The delay of the timer `startForecasting` arms: the interval in minutes, in milliseconds. */
  function DelayOf(interval: int): (delay: int)
    ensures delay == interval * MsPerMinute
    ensures interval > 0 ==> delay >= MsPerMinute
  {
    interval * 60 * 1000
  }

  /**
   * `startForecasting(uid)` with the fetched satoshi sum (`None` for a failed
   * fetch) and the clock reading `now`: cancel the chat's timer; stop if the chat
   * is unknown (reading its record throws), its threshold is falsy or the fetch
   * fails (the promise has no catch); otherwise evaluate, write the record, and
   * re-arm only if the interval is truthy.
   */
  function StartForecasting(s: State, uid: Uid, satoshiSum: Option<int>, now: nat): (r: State)
    // what happens to the timers
    ensures uid in r.timers <==> Proceeds(s, uid, satoshiSum) && Truthy(s.store[uid].interval)
    ensures uid in r.timers ==> r.timers[uid] == DelayOf(s.store[uid].interval.value)
    ensures forall u :: u != uid ==> (u in r.timers <==> u in s.timers)
    ensures forall u :: u != uid && u in s.timers ==> r.timers[u] == s.timers[u]
    // what happens to the store
    ensures r.store.Keys == s.store.Keys
    ensures forall u :: u != uid && u in s.store ==> r.store[u] == s.store[u]
    ensures forall u :: u in s.store ==>
      r.store[u].uid == s.store[u].uid && r.store[u].threshold == s.store[u].threshold
      && r.store[u].interval == s.store[u].interval
    ensures !Proceeds(s, uid, satoshiSum) ==> r.store == s.store && r.outbox == s.outbox
    ensures Proceeds(s, uid, satoshiSum) ==>
      var before, after := s.store[uid], r.store[uid];
      var fc := CalculateForecast(satoshiSum, now).value;
      after.uid == before.uid && after.threshold == before.threshold && after.interval == before.interval
      && after.latestForecast == Some(fc.forecast) && after.currentBTCVolume == Some(fc.currentBTCVolume)
    // what is sent: at most two messages, both to this chat
    ensures |s.outbox| <= |r.outbox| <= |s.outbox| + 2 && r.outbox[..|s.outbox|] == s.outbox
    ensures forall i :: |s.outbox| <= i < |r.outbox| ==> r.outbox[i].to == uid
    ensures WellFormed(s) ==> WellFormed(r)
  {
    var cancelled := s.timers - {uid};
    if !Proceeds(s, uid, satoshiSum) then s.(timers := cancelled)
    else
      var user := s.store[uid];
      var ev := Evaluate(uid, user, CalculateForecast(satoshiSum, now).value);
      State(s.store[uid := ev.user],
            if Truthy(user.interval) then cancelled[uid := DelayOf(user.interval.value)] else cancelled,
            s.outbox + ev.sent)
  }

  /** The messages a state reached from `s` has sent since `s`. */
  function Since(s: State, r: State): seq<Message>
    requires |s.outbox| <= |r.outbox|
  {
    r.outbox[|s.outbox|..]
  }

  /**
   * The notification rule of a tick: a notice of `kind` goes to the chat exactly
   * when the new reading exceeds the threshold and the field is null or stamped
   * on another UTC weekday, and the field is then stamped with `now`.
   */
  lemma TickNotice(s: State, uid: Uid, satoshiSum: Option<int>, now: nat, kind: Kind)
    requires Proceeds(s, uid, satoshiSum)
    ensures var r := StartForecasting(s, uid, satoshiSum, now);
      var user := s.store[uid];
      var fires := Fires(StampOf(user, kind), ReadingOf(CalculateForecast(satoshiSum, now).value, kind),
                         user.threshold.value, now);
      Count(Since(s, r), uid, kind) == (if fires then 1 else 0)
      && StampOf(r.store[uid], kind) == (if fires then Some(now) else StampOf(user, kind))
  {
    var r := StartForecasting(s, uid, satoshiSum, now);
    var fc := CalculateForecast(satoshiSum, now).value;
    var ev := Evaluate(uid, s.store[uid], fc);
    assert Since(s, r) == ev.sent;
    EvaluateNotice(uid, s.store[uid], fc, kind);
  }

  // ---------------------------------------------------------------- setThreshold / setInterval

  /**
   * `setThreshold`: when the chat is known, set its threshold, clear both
   * notified-at fields, write the record, then run `startForecasting`. An unknown
   * chat makes the read throw before anything changes.
   */
  function SetThreshold(s: State, uid: Uid, value: int, satoshiSum: Option<int>, now: nat): (r: State)
    ensures r.store.Keys == s.store.Keys
    ensures uid !in s.store ==> r == s
    ensures uid in s.store ==>
      var before, after := s.store[uid], r.store[uid];
      after.uid == before.uid && after.interval == before.interval && after.threshold == Some(value)
      && (after.forecastExceededNotifiedAt == None || after.forecastExceededNotifiedAt == Some(now))
      && (after.volumeExceededNotifiedAt == None || after.volumeExceededNotifiedAt == Some(now))
      && (value == 0 || satoshiSum.None? ==>
            after.latestForecast == before.latestForecast && after.currentBTCVolume == before.currentBTCVolume
            && after.forecastExceededNotifiedAt == after.volumeExceededNotifiedAt == None)
    ensures forall u :: u != uid && u in s.store ==> r.store[u] == s.store[u]
    ensures uid in s.store ==>
      (uid in r.timers <==> value != 0 && Truthy(s.store[uid].interval) && satoshiSum.Some?)
    ensures uid in s.store && uid in r.timers ==> r.timers[uid] == DelayOf(s.store[uid].interval.value)
    ensures value == 0 || satoshiSum.None? ==> r.outbox == s.outbox
    // other chats' timers are untouched; at most two messages, both to this chat
    ensures forall u :: u != uid ==> (u in r.timers <==> u in s.timers)
    ensures forall u :: u != uid && u in s.timers ==> r.timers[u] == s.timers[u]
    ensures |s.outbox| <= |r.outbox| <= |s.outbox| + 2 && r.outbox[..|s.outbox|] == s.outbox
    ensures forall i :: |s.outbox| <= i < |r.outbox| ==> r.outbox[i].to == uid
    ensures WellFormed(s) ==> WellFormed(r)
  {
    if uid !in s.store then s
    else
      var user := s.store[uid].(threshold := Some(value),
                                 forecastExceededNotifiedAt := None,
                                 volumeExceededNotifiedAt := None);
      StartForecasting(s.(store := s.store[uid := user]), uid, satoshiSum, now)
  }

  /**
   * A new threshold clears the daily gate: the tick it triggers stores the new
   * readings and sends each notice, stamping its field with `now`, exactly when
   * its reading exceeds the new threshold, whatever was sent earlier that day.
   */
  lemma SetThresholdRenotifies(s: State, uid: Uid, value: int, satoshiSum: Option<int>, now: nat, kind: Kind)
    requires uid in s.store && value != 0 && satoshiSum.Some?
    ensures var r := SetThreshold(s, uid, value, satoshiSum, now);
      var fc := CalculateForecast(satoshiSum, now).value;
      |s.outbox| <= |r.outbox|
      && Count(Since(s, r), uid, kind) == (if ReadingOf(fc, kind) > value then 1 else 0)
      && r.store[uid].latestForecast == Some(fc.forecast)
      && r.store[uid].currentBTCVolume == Some(fc.currentBTCVolume)
      && StampOf(r.store[uid], kind) == (if ReadingOf(fc, kind) > value then Some(now) else None)
  {
    var user := s.store[uid].(threshold := Some(value),
                               forecastExceededNotifiedAt := None,
                               volumeExceededNotifiedAt := None);
    var s' := s.(store := s.store[uid := user]);
    TickNotice(s', uid, satoshiSum, now, kind);
  }

  /**
   * `setInterval`: when the chat is known, set its interval, write the record,
   * then run `startForecasting`. Nothing but the interval changes before the
   * tick.
   */
  function SetInterval(s: State, uid: Uid, value: int, satoshiSum: Option<int>, now: nat): (r: State)
    ensures r.store.Keys == s.store.Keys
    ensures uid !in s.store ==> r == s
    ensures uid in s.store ==>
      var before, after := s.store[uid], r.store[uid];
      after.uid == before.uid && after.threshold == before.threshold && after.interval == Some(value)
      && (!Truthy(before.threshold) || satoshiSum.None? ==> after == before.(interval := Some(value)))
    ensures uid in s.store ==>
      (uid in r.timers <==> value != 0 && Truthy(s.store[uid].threshold) && satoshiSum.Some?)
    ensures uid in s.store && uid in r.timers ==> r.timers[uid] == DelayOf(value)
    ensures forall u :: u != uid && u in s.store ==> r.store[u] == s.store[u]
    ensures uid in s.store && (!Truthy(s.store[uid].threshold) || satoshiSum.None?) ==> r.outbox == s.outbox
    // other chats' timers are untouched; at most two messages, both to this chat
    ensures forall u :: u != uid ==> (u in r.timers <==> u in s.timers)
    ensures forall u :: u != uid && u in s.timers ==> r.timers[u] == s.timers[u]
    ensures |s.outbox| <= |r.outbox| <= |s.outbox| + 2 && r.outbox[..|s.outbox|] == s.outbox
    ensures forall i :: |s.outbox| <= i < |r.outbox| ==> r.outbox[i].to == uid
    ensures WellFormed(s) ==> WellFormed(r)
  {
    if uid !in s.store then s
    else StartForecasting(s.(store := s.store[uid := s.store[uid].(interval := Some(value))]), uid, satoshiSum, now)
  }

  /**
   * The tick `setInterval` starts for a chat with a truthy threshold and a
   * successful fetch: it stores the new readings and sends each notice, stamping
   * its field with `now`, exactly when the notice's gate fires on the record as
   * it was; otherwise the stamp stays.
   */
  lemma SetIntervalTick(s: State, uid: Uid, value: int, satoshiSum: Option<int>, now: nat, kind: Kind)
    requires uid in s.store && Truthy(s.store[uid].threshold) && satoshiSum.Some?
    ensures var r := SetInterval(s, uid, value, satoshiSum, now);
      var before, fc := s.store[uid], CalculateForecast(satoshiSum, now).value;
      var fires := Fires(StampOf(before, kind), ReadingOf(fc, kind), before.threshold.value, now);
      |s.outbox| <= |r.outbox|
      && Count(Since(s, r), uid, kind) == (if fires then 1 else 0)
      && r.store[uid].latestForecast == Some(fc.forecast)
      && r.store[uid].currentBTCVolume == Some(fc.currentBTCVolume)
      && StampOf(r.store[uid], kind) == (if fires then Some(now) else StampOf(before, kind))
  {
    var s' := s.(store := s.store[uid := s.store[uid].(interval := Some(value))]);
    TickNotice(s', uid, satoshiSum, now, kind);
  }

  // ---------------------------------------------------------------- renewForecasting

  /**
   * `renewForecasting`: `startForecasting` for every chat of the listing, in
   * order; `satoshiSums[i]` is what the fetch of the i-th tick returns.
   */
  function RenewForecasting(s: State, listing: seq<Uid>, satoshiSums: seq<Option<int>>, now: nat): (r: State)
    requires |satoshiSums| == |listing|
    // at most two messages per listed chat, each to a listed chat; nothing earlier is lost
    ensures |s.outbox| <= |r.outbox| <= |s.outbox| + 2 * |listing| && r.outbox[..|s.outbox|] == s.outbox
    ensures forall i :: |s.outbox| <= i < |r.outbox| ==> r.outbox[i].to in listing
    ensures WellFormed(s) ==> WellFormed(r)
    decreases |listing|
  {
    if listing == [] then s
    else
      var n := |listing| - 1;
      var mid := RenewForecasting(s, listing[..n], satoshiSums[..n], now);
      var r := StartForecasting(mid, listing[n], satoshiSums[n], now);
      assert r.outbox[..|s.outbox|] == r.outbox[..|mid.outbox|][..|s.outbox|];
      assert forall i :: |s.outbox| <= i < |mid.outbox| ==> r.outbox[i] == mid.outbox[i];
      r
  }

  /** A tick of one chat leaves every other chat's timer as it was. */
  lemma TickSparesOthers(s: State, uid: Uid, satoshiSum: Option<int>, now: nat, u: Uid)
    requires u != uid
    ensures u in StartForecasting(s, uid, satoshiSum, now).timers <==> u in s.timers
  {
  }

  /** The start-up pass keeps every stored chat, its threshold and its interval. */
  lemma {:induction false} RenewKeepsSettings(s: State, listing: seq<Uid>, satoshiSums: seq<Option<int>>, now: nat)
    requires |satoshiSums| == |listing|
    ensures var r := RenewForecasting(s, listing, satoshiSums, now);
      r.store.Keys == s.store.Keys
      && forall u :: u in s.store ==>
           r.store[u].threshold == s.store[u].threshold && r.store[u].interval == s.store[u].interval
    decreases |listing|
  {
    if listing != [] {
      var n := |listing| - 1;
      RenewKeepsSettings(s, listing[..n], satoshiSums[..n], now);
    }
  }

  /** The start-up pass leaves the timers of chats it does not list alone. */
  lemma {:induction false} RenewSparesUnlisted(s: State, listing: seq<Uid>, satoshiSums: seq<Option<int>>, now: nat, u: Uid)
    requires |satoshiSums| == |listing|
    requires u !in listing
    ensures u in RenewForecasting(s, listing, satoshiSums, now).timers <==> u in s.timers
    decreases |listing|
  {
    if listing != [] {
      var n := |listing| - 1;
      assert u !in listing[..n] && u != listing[n];
      RenewSparesUnlisted(s, listing[..n], satoshiSums[..n], now, u);
      TickSparesOthers(RenewForecasting(s, listing[..n], satoshiSums[..n], now), listing[n], satoshiSums[n], now, u);
    }
  }

  /**
   * After the start-up pass, a stored chat listed once has a timer exactly when its threshold and its interval are set (non-zero) and its
   * fetch succeeded.
   */
  lemma {:induction false} RenewArmsConfigured(s: State, listing: seq<Uid>, satoshiSums: seq<Option<int>>, now: nat, i: nat)
    requires |satoshiSums| == |listing|
    requires i < |listing| && listing[i] in s.store
    requires forall j :: 0 <= j < |listing| && j != i ==> listing[j] != listing[i]
    ensures listing[i] in RenewForecasting(s, listing, satoshiSums, now).timers <==>
      Truthy(s.store[listing[i]].threshold) && Truthy(s.store[listing[i]].interval) && satoshiSums[i].Some?
    decreases |listing|
  {
    var n := |listing| - 1;
    var s' := RenewForecasting(s, listing[..n], satoshiSums[..n], now);
    RenewKeepsSettings(s, listing[..n], satoshiSums[..n], now);
    if i < n {
      assert listing[..n][i] == listing[i] && satoshiSums[..n][i] == satoshiSums[i];
      RenewArmsConfigured(s, listing[..n], satoshiSums[..n], now, i);
      TickSparesOthers(s', listing[n], satoshiSums[n], now, listing[i]);
    }
  }

  // ---------------------------------------------------------------- at most once per weekday

  /** What can happen to the service: the calls the bot makes and the ticks its timers fire. */
  datatype Event =
    | Register(uid: Uid)
    | Tick(uid: Uid, satoshiSum: Option<int>, now: nat)
    | IntervalSet(uid: Uid, value: int, satoshiSum: Option<int>, now: nat)
    | ThresholdSet(uid: Uid, value: int, satoshiSum: Option<int>, now: nat)

  function Apply(s: State, e: Event): State {
    match e
    case Register(uid) => RegisterUser(s, uid).state
    case Tick(uid, sum, now) => StartForecasting(s, uid, sum, now)
    case IntervalSet(uid, value, sum, now) => SetInterval(s, uid, value, sum, now)
    case ThresholdSet(uid, value, sum, now) => SetThreshold(s, uid, value, sum, now)
  }

  function Replay(s: State, events: seq<Event>): State
    decreases |events|
  {
    if events == [] then s else Apply(Replay(s, events[..|events| - 1]), events[|events| - 1])
  }

  /** The event happens on UTC weekday `w` (registration reads no clock). */
  predicate OnWeekday(e: Event, w: nat) {
    e.Register? || Weekday(e.now) == w
  }

  /** `uid`'s notice of `kind` is stamped with an instant of weekday `w`. */
  predicate Stamped(s: State, uid: Uid, kind: Kind, w: nat) {
    uid in s.store && StampOf(s.store[uid], kind).Some? && Weekday(StampOf(s.store[uid], kind).value) == w
  }

  /**
   * From `s` to `r` no message left the outbox, at most one notice of `kind`
   * went to `uid`, none if it was already stamped on weekday `w` (and the stamp
   * stays), and a notice sent stamps it on `w`.
   */
  predicate OnceOnWeekday(s: State, r: State, uid: Uid, kind: Kind, w: nat) {
    |s.outbox| <= |r.outbox| && r.outbox[..|s.outbox|] == s.outbox
    && Count(Since(s, r), uid, kind) <= 1
    && (Stamped(s, uid, kind, w) ==> Stamped(r, uid, kind, w) && Count(Since(s, r), uid, kind) == 0)
    && (Count(Since(s, r), uid, kind) == 1 ==> Stamped(r, uid, kind, w))
  }

  /** Two stretches that each send at most one notice, the second none once the first sent one, make one such stretch. */
  lemma OnceOnWeekdayCompose(s: State, s': State, r: State, uid: Uid, kind: Kind, w: nat)
    requires OnceOnWeekday(s, s', uid, kind, w) && OnceOnWeekday(s', r, uid, kind, w)
    ensures OnceOnWeekday(s, r, uid, kind, w)
  {
    assert r.outbox[..|s.outbox|] == r.outbox[..|s'.outbox|][..|s.outbox|];
    var a, b := Since(s, s'), Since(s', r);
    assert a == r.outbox[|s.outbox|..|s'.outbox|];
    assert r.outbox[|s.outbox|..] == r.outbox[|s.outbox|..|s'.outbox|] + r.outbox[|s'.outbox|..];
    assert Since(s, r) == a + b;
    CountAppend(a, b, uid, kind);
  }

  lemma TickOnceOnWeekday(s: State, u: Uid, sum: Option<int>, now: nat, uid: Uid, kind: Kind)
    ensures OnceOnWeekday(s, StartForecasting(s, u, sum, now), uid, kind, Weekday(now))
  {
    var r := StartForecasting(s, u, sum, now);
    if u != uid || !Proceeds(s, u, sum) {
      CountOthers(Since(s, r), uid, kind);
    } else {
      TickNotice(s, u, sum, now, kind);
    }
  }

  /** Changing an interval touches no notified-at field before its tick. */
  lemma IntervalSetOnceOnWeekday(s: State, u: Uid, value: int, sum: Option<int>, now: nat, uid: Uid, kind: Kind)
    ensures OnceOnWeekday(s, SetInterval(s, u, value, sum, now), uid, kind, Weekday(now))
  {
    if u !in s.store {
      assert Since(s, s) == [];
    } else {
      var s' := s.(store := s.store[u := s.store[u].(interval := Some(value))]);
      assert Stamped(s, uid, kind, Weekday(now)) <==> Stamped(s', uid, kind, Weekday(now));
      TickOnceOnWeekday(s', u, sum, now, uid, kind);
    }
  }

  /** Setting another chat's threshold touches none of `uid`'s fields. */
  lemma OtherThresholdSetOnceOnWeekday(s: State, u: Uid, value: int, sum: Option<int>, now: nat, uid: Uid, kind: Kind)
    requires u != uid
    ensures OnceOnWeekday(s, SetThreshold(s, u, value, sum, now), uid, kind, Weekday(now))
  {
    if u !in s.store {
      assert Since(s, s) == [];
    } else {
      var s' := s.(store := s.store[u := s.store[u].(threshold := Some(value),
                                                     forecastExceededNotifiedAt := None,
                                                     volumeExceededNotifiedAt := None)]);
      assert Stamped(s, uid, kind, Weekday(now)) <==> Stamped(s', uid, kind, Weekday(now));
      TickOnceOnWeekday(s', u, sum, now, uid, kind);
    }
  }

  /** One event on weekday `w` that does not reset `uid`'s threshold. */
  lemma StepOnceOnWeekday(s: State, e: Event, uid: Uid, kind: Kind, w: nat)
    requires OnWeekday(e, w) && !(e.ThresholdSet? && e.uid == uid)
    ensures OnceOnWeekday(s, Apply(s, e), uid, kind, w)
  {
    match e
    case Register(u) =>
      assert Since(s, Apply(s, e)) == [];
    case Tick(u, sum, now) =>
      TickOnceOnWeekday(s, u, sum, now, uid, kind);
    case IntervalSet(u, value, sum, now) =>
      IntervalSetOnceOnWeekday(s, u, value, sum, now, uid, kind);
    case ThresholdSet(u, value, sum, now) =>
      OtherThresholdSetOnceOnWeekday(s, u, value, sum, now, uid, kind);
  }

  /**
   * At most one notice of each kind per UTC weekday: however many events all
   * happen on weekday `w` (ticks of any chat, interval changes, registrations,
   * thresholds set for other chats), as long as `uid`'s threshold is not set
   * again, `uid` receives at most one notice of `kind`, and none if it was
   * already stamped on that weekday.
   */
  lemma {:induction false} AtMostOncePerWeekday(s: State, events: seq<Event>, uid: Uid, kind: Kind, w: nat)
    requires forall i :: 0 <= i < |events| ==> OnWeekday(events[i], w)
    requires forall i :: 0 <= i < |events| ==> !(events[i].ThresholdSet? && events[i].uid == uid)
    ensures OnceOnWeekday(s, Replay(s, events), uid, kind, w)
    decreases |events|
  {
    if events == [] {
      assert Since(s, s) == [];
    } else {
      var n := |events| - 1;
      var s' := Replay(s, events[..n]);
      AtMostOncePerWeekday(s, events[..n], uid, kind, w);
      StepOnceOnWeekday(s', events[n], uid, kind, w);
      OnceOnWeekdayCompose(s, s', Apply(s', events[n]), uid, kind, w);
    }
  }

  /** A notice stamped one to six UTC days ago no longer blocks a reading above the threshold. */
  lemma FiresAgainWithinWeek(stamp: nat, reading: int, threshold: int, now: nat)
    requires DayIndex(stamp) < DayIndex(now) < DayIndex(stamp) + 7
    requires reading > threshold
    ensures Fires(Some(stamp), reading, threshold, now)
  {
  }

  /**
   * The gate compares weekdays, not dates: a notice stamped exactly seven UTC
   * days earlier still blocks a new one.
   */
  lemma BlockedAWeekLater(stamp: nat, reading: int, threshold: int, now: nat)
    requires DayIndex(now) == DayIndex(stamp) + 7
    ensures !Fires(Some(stamp), reading, threshold, now)
  {
  }
}

=== FILE: service.dfy ===
/**
 * `DataService` as the object it is: the record store, the timer table and the
 * messages sent are fields that its methods update step by step, in the order
 * of the source. Each method is proved to leave the object in the state the
 * matching function of module Scheduler gives, and to keep `Valid()`.
 */
module Service {
  import opened Wrappers
  import opened Clock
  import opened Forecast
  import opened Scheduler

  class DataService {
    /** The per-user JSON files, one record per chat id. */
    var store: map<Uid, UserRecord>
    /** `timers`: the delay of the one live timer of each chat that has one. */
    var timers: map<Uid, int>
    /** Every `bot.telegram.sendMessage` call so far, oldest first. */
    var outbox: seq<Message>

    /** The whole object as a value. */
    function AsState(): State
      reads this
    {
      State(store, timers, outbox)
    }

    /**
     * Every record is stored under its own id and only stored chats have
     * timers; it is what lets `RegisterUser` promise the chat's own record.
     */
    ghost predicate Valid()
      reads this
    {
      WellFormed(AsState())
    }

    /** A service over the records already on disk, with no timer armed and nothing sent. */
    constructor (persisted: map<Uid, UserRecord>)
      requires forall u :: u in persisted ==> persisted[u].uid == u
      ensures Valid()
      ensures store == persisted && timers == map[] && outbox == []
    {
      store := persisted;
      timers := map[];
      outbox := [];
    }

    /** `getUserData`: the chat's record, or `None` where reading its file throws. */
    function GetUserData(uid: Uid): (r: Option<UserRecord>)
      reads this
      ensures r.Some? <==> uid in store
      ensures r.Some? ==> r.value == store[uid]
    {
      if uid in store then Some(store[uid]) else None
    }

    /** `updateUserData`: overwrite the chat's record. */
    method UpdateUserData(uid: Uid, data: UserRecord)
      modifies this`store
      ensures store == old(store)[uid := data]
    {
      store := store[uid := data];
    }

    /** `registerUser`: create-if-absent; returns the record now stored. */
    method RegisterUser(uid: Uid) returns (user: UserRecord)
      requires Valid()
      modifies this`store
      ensures Valid()
      ensures Registration(AsState(), user) == Scheduler.RegisterUser(old(AsState()), uid)
      ensures uid in store && user == store[uid] && user.uid == uid
    {
      var found := GetUserData(uid);
      if found.None? {
        user := NewRecord(uid);
        UpdateUserData(uid, user);
      } else {
        user := found.value;
      }
    }

    /** `setInterval`: write the new interval, then restart forecasting. */
    method SetInterval(uid: Uid, value: int, satoshiSum: Option<int>, now: nat)
      requires Valid()
      modifies this
      ensures Valid()
      ensures AsState() == Scheduler.SetInterval(old(AsState()), uid, value, satoshiSum, now)
    {
      var found := GetUserData(uid);
      if found.None? {
        return;
      }
      var user := found.value.(interval := Some(value));
      UpdateUserData(uid, user);
      StartForecasting(uid, satoshiSum, now);
    }

    /** `setThreshold`: write the new threshold with both notified-at fields cleared, then restart forecasting. */
    method SetThreshold(uid: Uid, value: int, satoshiSum: Option<int>, now: nat)
      requires Valid()
      modifies this
      ensures Valid()
      ensures AsState() == Scheduler.SetThreshold(old(AsState()), uid, value, satoshiSum, now)
    {
      var found := GetUserData(uid);
      if found.None? {
        return;
      }
      var user := found.value;
      user := user.(threshold := Some(value));
      user := user.(forecastExceededNotifiedAt := None);
      user := user.(volumeExceededNotifiedAt := None);
      UpdateUserData(uid, user);
      StartForecasting(uid, satoshiSum, now);
    }

    /**
     * dataService.js:116-143 on the in-memory copy of the record: store the new readings,
     * then run the forecast check and the volume check, each of which sends its
     * message and stamps its notified-at field when it fires.
     */
    method Check(uid: Uid, user: UserRecord, fc: ForecastResult) returns (updated: UserRecord)
      requires user.threshold.Some?
      modifies this`outbox
      ensures updated == Evaluate(uid, user, fc).user
      ensures outbox == old(outbox) + Evaluate(uid, user, fc).sent
    {
      var now := fc.now;
      updated := user.(latestForecast := Some(fc.forecast), currentBTCVolume := Some(fc.currentBTCVolume));
      var t := updated.threshold.value;

      if updated.forecastExceededNotifiedAt.None? || Weekday(updated.forecastExceededNotifiedAt.value) != Weekday(now) {
        if updated.latestForecast.value > t {
          outbox := outbox + [Message(uid, ForecastExceeded, updated.latestForecast.value, t)];
          updated := updated.(forecastExceededNotifiedAt := Some(now));
        }
      }
      ghost var afterForecast := outbox;

      if updated.volumeExceededNotifiedAt.None? || Weekday(updated.volumeExceededNotifiedAt.value) != Weekday(now) {
        if updated.currentBTCVolume.value > t {
          outbox := outbox + [Message(uid, VolumeExceeded, updated.currentBTCVolume.value, t)];
          updated := updated.(volumeExceededNotifiedAt := Some(now));
        }
      }
      assert outbox == afterForecast + (outbox[|afterForecast|..]);
    }

    /**
     * `startForecasting`: cancel the chat's timer, read its record, and if its
     * threshold is truthy and the fetch succeeds, update the readings, run the
     * two daily-gated checks, write the record and re-arm when the interval is
     * truthy.
     */
    method StartForecasting(uid: Uid, satoshiSum: Option<int>, now: nat)
      requires Valid()
      modifies this
      ensures Valid()
      ensures AsState() == Scheduler.StartForecasting(old(AsState()), uid, satoshiSum, now)
    {
      if uid in timers {
        timers := timers - {uid};
      }
      var found := GetUserData(uid);
      if found.None? {
        return;
      }
      var user := found.value;
      if !Truthy(user.threshold) {
        return;
      }
      var result := CalculateForecast(satoshiSum, now);
      if result.None? {
        return;
      }
      user := Check(uid, user, result.value);
      UpdateUserData(uid, user);

      if Truthy(user.interval) {
        timers := timers[uid := DelayOf(user.interval.value)];
      }
    }

    /**
     * `renewForecasting`: restart forecasting for every chat `getAllUids` lists
     * (`listing`, in directory order); `satoshiSums[i]` is what the i-th fetch
     * returns.
     */
    method RenewForecasting(listing: seq<Uid>, satoshiSums: seq<Option<int>>, now: nat)
      requires Valid()
      requires |satoshiSums| == |listing|
      requires forall u :: u in listing <==> u in store
      modifies this
      ensures Valid()
      ensures AsState() == Scheduler.RenewForecasting(old(AsState()), listing, satoshiSums, now)
    {
      var i := 0;
      while i < |listing|
        invariant 0 <= i <= |listing|
        invariant Valid()
        invariant AsState() == Scheduler.RenewForecasting(old(AsState()), listing[..i], satoshiSums[..i], now)
      {
        ghost var done := Scheduler.RenewForecasting(old(AsState()), listing[..i], satoshiSums[..i], now);
        StartForecasting(listing[i], satoshiSums[i], now);
        assert AsState() == Scheduler.StartForecasting(done, listing[i], satoshiSums[i], now);
        assert listing[..i + 1][..i] == listing[..i] && satoshiSums[..i + 1][..i] == satoshiSums[..i];
        i := i + 1;
      }
      assert listing[..i] == listing && satoshiSums[..i] == satoshiSums;
    }
  }
}

=== FILE: utils.dfy ===
/** The two helpers of `utils.js`: Russian plural-form selection and left padding. */
module Utils {
  import opened Wrappers

  /** JavaScript's `%` for a positive divisor: it truncates, so the remainder takes the dividend's sign. */
  function JsRem(a: int, b: int): (r: int)
    requires b > 0
    ensures a >= 0 ==> r == a % b
    ensures a < 0 ==> -b < r <= 0
  {
    if a >= 0 then a % b else -((-a) % b)
  }

  /**
   * The index `declOfNum` reads from its titles: 0 for the form after 1, 21, 31,
   * ...; 1 for the form after 2-4, 22-24, ...; 2 for every other number.
   */
  function DeclIndex(n: int): (i: nat)
    ensures i <= 2
  {
    var units, hundreds := JsRem(n, 10), JsRem(n, 100);
    if units == 1 && hundreds != 11 then 0
    else if 2 <= units <= 4 && (hundreds < 10 || hundreds >= 20) then 1
    else 2
  }

  /**
   * `declOfNum(n, titles)`: the title at `DeclIndex(n)`, or `None` (JavaScript's
   * `undefined`) when `titles` is too short to have one.
   */
  function DeclOfNum<T>(n: int, titles: seq<T>): (r: Option<T>)
    ensures DeclIndex(n) < |titles| ==> r == Some(titles[DeclIndex(n)])
    ensures |titles| <= DeclIndex(n) ==> r == None
  {
    var i := DeclIndex(n);
    if i < |titles| then Some(titles[i]) else None
  }

  /** The first form: last digit 1, except for numbers ending in 11. */
  lemma DeclSingular(n: nat)
    ensures DeclIndex(n) == 0 <==> n % 10 == 1 && n % 100 != 11
  {
  }

  /** The second form: last digit 2, 3 or 4, except for numbers ending in 12, 13 or 14. */
  lemma DeclFew(n: nat)
    ensures DeclIndex(n) == 1 <==> 2 <= n % 10 <= 4 && !(10 <= n % 100 < 20)
  {
  }

  /** The last digit of a number is the last digit of its last two digits. */
  lemma LastDigit(n: nat)
    ensures n % 10 == (n % 100) % 10
  {
    var q, b := n / 100, n % 100;
    var c, d := b / 10, b % 10;
    assert n == 10 * (10 * q + c) + d;
    TenthRemainder(n, 10 * q + c, d);
  }

  /** A number written as 10k + d with a digit d has last digit d. */
  lemma TenthRemainder(n: int, k: int, d: int)
    requires n == 10 * k + d && 0 <= d < 10
    ensures n % 10 == d
  {
  }

  /** The third form: the teens, last digits 0 and 5-9, and every negative number. */
  lemma DeclMany(n: int)
    ensures n >= 0 && 11 <= n % 100 <= 14 ==> DeclIndex(n) == 2
    ensures n >= 0 && (n % 10 == 0 || n % 10 >= 5) ==> DeclIndex(n) == 2
    ensures n < 0 ==> DeclIndex(n) == 2
  {
    if n >= 0 {
      LastDigit(n);
    }
  }

  /** The decimal digit character of `d`. */
  function Digit(d: nat): (c: char)
    requires d < 10
    ensures '0' <= c <= '9'
  {
    "0123456789"[d]
  }

  /** The value of a decimal digit character. */
  function DigitValue(c: char): (d: nat)
    requires '0' <= c <= '9'
    ensures d < 10 && Digit(d) == c
  {
    (c as int) - ('0' as int)
  }

  predicate IsDigits(s: string) {
    forall i :: 0 <= i < |s| ==> '0' <= s[i] <= '9'
  }

  /** The number a string of decimal digits denotes. */
  function DigitsValue(s: string): nat
    requires IsDigits(s)
  {
    if s == [] then 0 else DigitsValue(s[..|s| - 1]) * 10 + DigitValue(s[|s| - 1])
  }

  /** `String(n)` of a natural number: its shortest decimal representation. */
  function NatString(n: nat): (s: string)
    ensures |s| >= 1 && IsDigits(s)
    ensures n < 10 ==> |s| == 1
    ensures 10 <= n < 100 ==> |s| == 2
  {
    if n < 10 then [Digit(n)] else NatString(n / 10) + [Digit(n % 10)]
  }

  /** Reading back the decimal string of `n` gives `n`. */
  lemma {:induction false} NatStringRoundTrip(n: nat)
    ensures DigitsValue(NatString(n)) == n
  {
    var s := NatString(n);
    if n < 10 {
      assert s[..0] == [];
      assert DigitValue(s[0]) == n;
    } else {
      NatStringRoundTrip(n / 10);
      assert s[..|s| - 1] == NatString(n / 10);
      assert DigitValue(s[|s| - 1]) == n % 10;
    }
  }

  /** The decimal string of `n` has no leading zero unless it is `"0"` itself. */
  lemma {:induction false} NatStringNoLeadingZero(n: nat)
    ensures NatString(n)[0] == '0' ==> n == 0
  {
    if n >= 10 {
      NatStringNoLeadingZero(n / 10);
      assert NatString(n)[0] == NatString(n / 10)[0];
    }
  }

  /** `n + ''` for an integer: a minus sign before the digits of a negative number. */
  function DecimalString(n: int): (s: string)
    ensures |s| >= 1
    ensures n >= 0 ==> s == NatString(n)
    ensures n < 0 ==> s[0] == '-' && s[1..] == NatString(-n)
  {
    if n < 0 then "-" + NatString(-n) else NatString(n)
  }

  /** `new Array(k + 1).join(z)`: `z` written `k` times. */
  function Repeat(z: string, k: nat): (r: string)
    ensures |r| == k * |z|
    ensures |z| == 1 ==> forall i :: 0 <= i < |r| ==> r[i] == z[0]
  {
    if k == 0 then "" else z + Repeat(z, k - 1)
  }

  /** `z || '0'`: the padding defaults to `'0'` when omitted (passed as `""` here) or empty. */
  function PadChar(z: string): (p: string)
    ensures |p| >= 1
    ensures z != "" ==> p == z
  {
    if z == "" then "0" else z
  }

  /**
   * `pad(n, width, z)`: the decimal string of `n`, unchanged when it already
   * has `width` characters, otherwise preceded by `width - length` copies of the
   * padding.
   */
  function Pad(n: int, width: int, z: string): (r: string)
    ensures |DecimalString(n)| >= width ==> r == DecimalString(n)
    ensures |DecimalString(n)| < width ==>
      r == Repeat(PadChar(z), width - |DecimalString(n)|) + DecimalString(n)
  {
    var s := DecimalString(n);
    if |s| >= width then s else Repeat(PadChar(z), width - |s|) + s
  }

  /**
   * With a one-character padding, a short number is padded to exactly `width`
   * characters: the padding repeated, then the number's own digits.
   */
  lemma PadToWidth(n: int, width: int, z: string)
    requires |z| <= 1
    requires |DecimalString(n)| < width
    ensures |Pad(n, width, z)| == width
    ensures Pad(n, width, z)[width - |DecimalString(n)|..] == DecimalString(n)
    ensures forall i :: 0 <= i < width - |DecimalString(n)| ==> Pad(n, width, z)[i] == PadChar(z)[0]
  {
    var s := DecimalString(n);
    var prefix := Repeat(PadChar(z), width - |s|);
    assert Pad(n, width, z) == prefix + s;
    assert (prefix + s)[|prefix|..] == s;
  }

  /** An omitted or empty padding pads with zeros. */
  lemma PadDefaultsToZero(n: int, width: int)
    ensures Pad(n, width, "") == Pad(n, width, "0")
  {
  }

  /**
   * `pad(d, 2, '0')` as the volume request builds its date: a day of the month
   * (or a month number) becomes two digits that read back as that number.
   */
  lemma {:induction false} PadDatePart(n: nat)
    requires 1 <= n <= 31
    ensures |Pad(n, 2, "0")| == 2 && IsDigits(Pad(n, 2, "0"))
    ensures DigitsValue(Pad(n, 2, "0")) == n
  {
    NatStringRoundTrip(n);
    var s := NatString(n);
    if n < 10 {
      var r := Pad(n, 2, "0");
      assert r == "0" + s;
      assert r[..1] == "0";
      assert DigitsValue(r[..1]) == 0 by {
        assert r[..1][..0] == [];
      }
      assert s[..0] == [];
    }
  }
}

=== FILE: wrappers.dfy ===
/** The nullable values of the service's records: `null` is `None`. */
module Wrappers {
  datatype Option<+T> = None | Some(value: T)
}
